=== FILE: README.md ===
# Task list client: list bookkeeping, drag reorder and CSV export, in Dafny

This project models the client-side state logic of a task-list web application.

- **Task store** (`src/App.tsx`). The app keeps the ordered `tasks` of the active view and the view flag `status` (`false` = open tasks, `true` = done tasks). The initial query, the three server-pushed events (`task_created`, `task_reordered`, `task_updated`) and the three mutations (reorder, toggle, edit) all go through it. Modules `TaskSort` and `App`.
- **The drag-reorder handler** (`src/pages/TasksPage.tsx`). It resolves the identity keys of the dragged item and the drop target, moves the dragged item, renumbers `orderIndex` on the affected range, and applies the new list at once. It then sends the tasks whose `orderIndex` changed, and restores the snapshot if that request fails. Module `TasksPage`.
- **The CSV export hook** (`src/hooks/useExport.ts`). This is a small state machine over the job, the `isExporting` flag, the polling interval handle and the stream handle. It is driven by the start request, pushed `export_update` events, status fetches, poll ticks, the download guard and unmount. Module `UseExport`.

Shared pieces:
- `Wrappers` holds `Option`.
- `Seqs` holds the `filter` of the source (`Seqs.Filter`), with lemmas that it yields a subsequence, keeps everything when every element passes, and drops exactly one element when exactly one fails.
- `TaskType` holds the record of one task.

`Array.prototype.sort` is required to be stable, so `sortTasks` is the stable sort by `orderIndex`:
- `TaskSort.SortByOrder` states it as an insertion sort.
- `TaskSort.SortTasks` sorts an array in place, as the source does, and is proved to produce exactly `SortByOrder` of the old contents.
- The push handlers copy the list into a fresh array and sort that, as the spread and the `map`/`filter`/`concat` chains of the source build new arrays (src/App.tsx:65-66, 76-78, 91).
- The initial load has no copy: it sorts the response array `res.data.data` itself in place (src/App.tsx:21). `App.TaskStore.Load` receives that response as a sequence and sorts an array holding it, which gives the same list.

Stateful parts are classes with `modifies` clauses:
- `App.TaskStore` (fields `tasks` and `status`).
- `TasksPage.TasksPage` (`hasReordered`, plus the store it writes through `setTasks`).
- `UseExport.ExportHook`.

Each method is tied to a pure function, and the properties are proved as lemmas about those functions. Requests, replies, events, timer ticks and the outcome of the reorder request are method inputs or outputs. A failed request is `None`, or `gatewayOk == false` for the reorder request.

Some behaviour of the code, as modelled:
- A `task_updated` event for an id that is not in the list is dropped. Nothing is appended (`App.UpdateUnknownId`).
- `task_created` appends without de-duplication (`App.AppendCreated`).
- The toggle and edit mutations only send requests. They never change the local list, and nothing is rolled back.
- There is no reconnect, backoff or online/visibility logic in these files, so none is modelled.
- The changed subset of a drag looks up each task's pre-drag version with `find` by `id`, so it picks the FIRST task with that id. With distinct ids it finds that very task (`TasksPage.ChangedExactly`). Tasks without an id all share the id `""`, and they are sent with it.
- Starting a second export while one is still polling overwrites the polling handle without clearing the running interval. That interval keeps polling, and nothing can clear it any more (`UseExport.RestartKeepsEarlierInterval` for the restart, `UseExport.OrphanIntervalSurvives` for every later step).
- That earlier interval still polls its own job id, but the reply is written through `prev?.jobId || jobId`, so it lands on the new job. A terminal reply to it ends the new export and clears the new interval, while the earlier interval keeps running (`UseExport.StalePollEndsRestartedExport`).

## Model

| member | source | states |
|---|---|---|
| `TaskSort.SortByOrder` | src/App.tsx:57-60 | the result has the input's length and is non-decreasing in `orderIndex` |
| `TaskSort.SortIsPermutation` | src/App.tsx:57-60 | sorting neither adds nor drops a task: same multiset |
| `TaskSort.SortIsStable` | src/App.tsx:57-60 | tasks with equal `orderIndex` keep their relative order (stable sort) |
| `TaskSort.SortOfSorted` | src/App.tsx:57-60 | an already sorted list is returned unchanged |
| `TaskSort.SortIdempotent` | src/App.tsx:57-60 | sorting twice equals sorting once |
| `TaskSort.SortTasks` | src/App.tsx:58 | in-place sort of the array: its new contents are exactly the stable sort of the old ones |
| `TaskSort.InsertAt` | src/App.tsx:58 | one insertion pass moves `a[i]` into the sorted prefix and leaves the suffix alone |
| `TaskSort.ShiftGreater` | src/App.tsx:58 | shifts exactly the trailing run of the prefix with a larger `orderIndex` one slot right and returns the gap: the element just before the gap has an `orderIndex` not above the inserted one, everything shifted is above it, and nothing past `i` moves |
| `App.ViewQuery` | src/App.tsx:20 | the query asks for "open" exactly when `status` is false and "done" exactly when it is true |
| `App.TaskStore.Load` | src/App.tsx:17-24 | requests `/tasks?status=` with the active view and installs exactly the fetched tasks, sorted |
| `App.TaskStore.constructor` | src/App.tsx:14-15 | starts with an empty list on the open view |
| `App.TaskStore.ToggleView` | src/pages/TasksPage.tsx:146-152 | the checkbox flips the active view |
| `TaskType.Ids` | src/App.tsx:75 | one id per task, in list order |
| `App.UpdateTask` | src/App.tsx:62-71 | never longer than the old list, and sorted |
| `App.ReplaceById` | src/App.tsx:65 | same length; each position holds the update when its id equals the update's id, and the old task otherwise |
| `App.InView` | src/App.tsx:66 | exactly the tasks whose `done` equals the active view, never more tasks than given |
| `Seqs.Filter` | src/App.tsx:66 | `Array.prototype.filter`: keeps exactly the elements that pass the predicate, never more than given |
| `Seqs.FilterIsSubsequence` | src/pages/TasksPage.tsx:83-90 | the filtered elements keep their order: the result is a subsequence of the input |
| `Seqs.FilterKeepsAll` | src/App.tsx:66 | when every element passes, the filter returns its input unchanged |
| `Seqs.FilterDropsOne` | src/App.tsx:66 | when exactly one element fails, the result is one shorter |
| `App.UpdateTaskContents` | src/App.tsx:62-68 | every result task is in view; each is the update or an old task with another id; if the update leaves the view its id is gone; old tasks with other ids that match the view are kept unchanged; a known id in view yields the update |
| `App.UpdateUnknownId` | src/App.tsx:64-66 | an update for an id not in the list adds nothing: the result is the old list filtered by view and sorted |
| `App.UpdateTaskIdempotent` | src/App.tsx:62-71 | applying the same update twice gives the list that applying it once gives |
| `App.UpdateOutOfViewShrinks` | src/App.tsx:100-104 | with distinct ids, all in view, an update that flips `done` of a visible task removes exactly that one task |
| `App.TaskStore.OnTaskUpdated` | src/App.tsx:100-104 | the `task_updated` handler replaces the list by `UpdateTask` of the old list under the current view |
| `App.MergeAndSortTasks` | src/App.tsx:73-83 | the result has length \|old tasks not in batch\| + \|batch\| and is sorted |
| `App.WithoutIds` | src/App.tsx:75-77 | exactly the old tasks whose id is not among the batch ids, never more tasks than given |
| `App.MergeContents` | src/App.tsx:73-83 | the result is, as a multiset, the old tasks whose id is not in the batch plus the batch; every batch task appears; no task with a batch id survives unless it is a batch task; every other old task survives |
| `App.TaskStore.OnTaskReordered` | src/App.tsx:94-98 | the `task_reordered` handler replaces the list by the merge of the old list and the batch |
| `App.AppendCreated` | src/App.tsx:88-92 | the `task_created` list grows by exactly one and is sorted |
| `App.AppendCreatedContents` | src/App.tsx:88-92 | the result is the old multiset plus the pushed task, even when its id is already present |
| `App.TaskStore.OnTaskCreated` | src/App.tsx:88-92 | the `task_created` handler replaces the list by `AppendCreated` of the old list |
| `App.ReorderPayload` | src/App.tsx:29-33 | one `{id, orderIndex, version}` item per task, in the same order |
| `App.TaskStore.ReOrder` | src/App.tsx:26-36 | `PATCH /tasks/reorder` whose items carry the ids, order indexes and versions of the given tasks, in order |
| `App.TaskStore.ToggleDone` | src/App.tsx:38-44 | `PATCH /tasks/{id}` with `done = !task.done`; the local list is not changed |
| `App.TaskStore.UpdateFields` | src/App.tsx:46-55 | `PATCH /tasks/{id}` with its title, description, priority and due date; the local list is not changed |
| `TasksPage.TaskKey` | src/pages/TasksPage.tsx:38 | the key is the id when it is non-empty, otherwise it starts with `task-` |
| `TasksPage.PositionalKeys` | src/pages/TasksPage.tsx:38 | two tasks without an id get the same key exactly when their `orderIndex` is equal |
| `TasksPage.IntToString` | src/pages/TasksPage.tsx:38-54 | the printed `orderIndex` of a key is non-empty, starts with `-` exactly for a negative number, and is digits after that; it reads back as the same number (`IntToStringRoundTrip`) |
| `TasksPage.NatToStringRoundTrip` | src/pages/TasksPage.tsx:38 | the printed `orderIndex` reads back as the same number |
| `TasksPage.IntToStringRoundTrip` | src/pages/TasksPage.tsx:38 | any printed `orderIndex`, negative ones included, reads back as the same number |
| `TasksPage.IntToStringInjective` | src/pages/TasksPage.tsx:38 | distinct `orderIndex` values print differently |
| `TasksPage.TaskIds` | src/pages/TasksPage.tsx:37-40 | one key per task, in list order |
| `TasksPage.FindKey` | src/pages/TasksPage.tsx:50-55 | the first position whose key matches, or `None` when no key matches |
| `TasksPage.FindKeyAgreesWithTaskIds` | src/pages/TasksPage.tsx:37-55 | lookup succeeds exactly for the keys handed to the sortable context, at a position holding that key |
| `TasksPage.ArrayMove` | src/pages/TasksPage.tsx:62 | same length; the moved element lands at the destination; positions outside the range are unchanged; inside it the others shift by one |
| `TasksPage.ArrayMoveIsPermutation` | src/pages/TasksPage.tsx:62 | the move is a permutation |
| `TasksPage.Renumber` | src/pages/TasksPage.tsx:64-78 | inside `[start, end]` each task gets its position as `orderIndex`; outside, tasks are untouched |
| `TasksPage.Reorder` | src/pages/TasksPage.tsx:62-78 | the list applied optimistically: same length; the dragged task at the destination with that position as `orderIndex`; tasks outside the moved range untouched |
| `TasksPage.ReorderShape` | src/pages/TasksPage.tsx:62-78 | same length; the ids are moved as `arrayMove` moves them, so the multiset of ids is unchanged; the dragged task ends at the destination with that index; outside the range nothing changes; inside, the `orderIndex` is the position |
| `TasksPage.ReorderKeepsPositions` | src/pages/TasksPage.tsx:64-78 | if every `orderIndex` equals its position before the drag, the same holds after it |
| `TasksPage.FindById` | src/pages/TasksPage.tsx:86 | the first snapshot task with the given id, or `None` when there is none |
| `TasksPage.OrderChanged` | src/pages/TasksPage.tsx:85-90 | a task counts as changed only when some snapshot task with its id has another `orderIndex`; a task whose id is not in the snapshot never counts |
| `TasksPage.ChangedTasks` | src/pages/TasksPage.tsx:83-90 | a subsequence of the renumbered range holding exactly the tasks whose snapshot version has another `orderIndex` |
| `TasksPage.ChangedExactly` | src/pages/TasksPage.tsx:83-90 | with distinct ids, a task in the range is sent exactly when its new position differs from its pre-drag `orderIndex` |
| `TasksPage.MovedTaskFound` | src/pages/TasksPage.tsx:86 | with distinct ids, the pre-drag `find` of any task of the moved list returns that very task |
| `TasksPage.LocateDrag` | src/pages/TasksPage.tsx:46-57 | a move happens exactly when there is a drop target with another key and both keys are found, at positions holding those keys |
| `TasksPage.DragEnd` | src/pages/TasksPage.tsx:42-105 | no-op without a located move; otherwise the reorder request is made exactly when the changed subset is non-empty and carries that subset; the list ends as the reordered list, or as the snapshot when the request failed |
| `TasksPage.DragRollback` | src/pages/TasksPage.tsx:95-98 | a failed reorder request leaves exactly the pre-drag list; with no request, failure cannot matter |
| `TasksPage.DragNoOp` | src/pages/TasksPage.tsx:46-57 | no target, the same key, or an unknown key: list unchanged and nothing sent |
| `TasksPage.ScenarioLocate` | src/pages/TasksPage.tsx:50-55 | in `[A:0, B:1, C:2]`, A is found at 0 and C at 2 |
| `TasksPage.ScenarioReorder` | src/pages/TasksPage.tsx:62-78 | moving position 0 to position 2 gives `[B:0, C:1, A:2]` |
| `TasksPage.ScenarioChanged` | src/pages/TasksPage.tsx:83-90 | all three tasks of that scenario are in the changed subset |
| `TasksPage.DragScenario` | src/pages/TasksPage.tsx:62-94 | dropping A on C gives `[B:0, C:1, A:2]` and sends all three tasks |
| `TasksPage.TasksPage.constructor` | src/pages/TasksPage.tsx:35 | the page starts with `hasReordered` false |
| `TasksPage.TasksPage.HandleDragEnd` | src/pages/TasksPage.tsx:42-105 | the store ends as `DragEnd` says, the request sent is `DragEnd`'s, and `hasReordered` is set exactly when a move was located |
| `UseExport.ExportScope` | src/hooks/useExport.ts:154 | the scope is "done" exactly when `currentStatus` is true and "open" exactly when it is false |
| `UseExport.StartRequestFor` | src/hooks/useExport.ts:150-156 | the start request carries the scope of the current view |
| `UseExport.ApplyPush` | src/hooks/useExport.ts:44-52 | no job or another id returns `prev`; a match keeps `jobId` and `downloadUrl` and overwrites `status` and `error` |
| `UseExport.ApplyReply` | src/hooks/useExport.ts:101-106 | keeps the previous `jobId` when there is a non-empty one, else takes the argument; overwrites `status`, `downloadUrl` and `error` |
| `UseExport.Initial` | src/hooks/useExport.ts:13-18 | no job, not exporting, no polling handle and no running interval, no stream, mounted; the state invariant holds |
| `UseExport.StopPolling` | src/hooks/useExport.ts:61-64 | the handle becomes null and its interval stops; nothing else changes; the invariant is kept |
| `UseExport.Start` | src/hooks/useExport.ts:146-173 | while mounted: on failure only `isExporting` returns to false; on success the job is `{jobId, pending}`, exporting, with the stream open. After unmount the state setters do nothing: the job and flag are unchanged. On success, in both cases, a new 3000 ms interval polling that job becomes the handle; the invariant is kept |
| `UseExport.PushMatches` | src/hooks/useExport.ts:21-40 | the listener acts only on an event for the current job; with no job, after unmount, or for an event of another type it acts on nothing |
| `UseExport.PushAfterUnmount` | src/hooks/useExport.ts:79-93 | once unmounted, no pushed event changes the state or triggers a fetch |
| `UseExport.Push` | src/hooks/useExport.ts:31-74 | events that are not an `export_update` for the current job (or arrive with no job set) change nothing; a match keeps `jobId` and `downloadUrl`, takes `status` and `error`; a terminal status ends the export and clears the handle and its interval, every other interval left running; otherwise the flag and polling are unchanged; `mounted`, the stream and the handle counter never change; the invariant is kept |
| `UseExport.PushFetch` | src/hooks/useExport.ts:54-57 | the status of the job is fetched exactly when a matching event reports completion |
| `UseExport.Fetched` | src/hooks/useExport.ts:96-110 | a failed fetch changes nothing; a reply overwrites the job per `ApplyReply`; the flag and polling are untouched |
| `UseExport.Polled` | src/hooks/useExport.ts:112-144 | as a fetch (no React state change after unmount); a terminal status clears the handle and its interval through the ref, mounted or not, every other interval left running, and ends the export while mounted; a non-terminal one leaves the flag and polling unchanged; `mounted` and the handle counter never change |
| `UseExport.Unmounted` | src/hooks/useExport.ts:83-93 | the stream is closed, the handle is null and its interval stopped, every other interval left running; the job, flag and handle counter are kept |
| `UseExport.OpenStream` | src/hooks/useExport.ts:20-27 | the stream is open afterwards exactly when it was already open or a job exists on a mounted hook; nothing else changes; the invariant is kept |
| `UseExport.Tick` | src/hooks/useExport.ts:166-168 | a tick polls the job its interval was started for: on a mounted hook with no job yet, the reply installs a job with that id; any reply on a mounted hook sets the job's status; the invariant is kept |
| `UseExport.StoredText` | src/hooks/useExport.ts:150-152 | the stored user id as text, and `null` when there is none |
| `UseExport.LateReplyLeaksInterval` | src/hooks/useExport.ts:158-168 | a start reply arriving after unmount leaves job and flag as they were but adds a running interval the cleanup already ran past |
| `UseExport.LateIntervalStopsOnTerminalPoll` | src/hooks/useExport.ts:124-140 | that late interval is cleared by its first terminal poll, leaving the timers as they were after unmount |
| `UseExport.DownloadFor` | src/hooks/useExport.ts:176-194 | a file request is made exactly when a job exists with status completed, under the name `tasks_export_<jobId>.csv` |
| `UseExport.RestartKeepsEarlierInterval` | src/hooks/useExport.ts:166-168 | starting again while polling replaces the handle but the earlier interval stays running: one more live interval |
| `UseExport.StalePollEndsRestartedExport` | src/hooks/useExport.ts:117-131 | after a restart, a terminal reply to the earlier interval's poll lands on the new job (keeping the new id), ends the new export and clears the new interval, while the earlier interval keeps running |
| `UseExport.OrphanIntervalSurvives` | src/hooks/useExport.ts:124-140 | every clear goes through the ref (here, on a terminal poll; likewise on a terminal push and at unmount), so an interval the ref does not name keeps running, unchanged, through every push, fetch, poll, start, unmount and stream effect, and never becomes the ref's handle again |
| `UseExport.SingleExportSinglePoller` | src/hooks/useExport.ts:146-168 | from no intervals, a started export has exactly one, and a terminal push for it leaves none |
| `UseExport.ExportHook.constructor` | src/hooks/useExport.ts:12-18 | the hook starts in `Initial()` |
| `UseExport.ExportHook.ClearPolling` | src/hooks/useExport.ts:128-131 | clears the interval named by the handle and nulls the handle |
| `UseExport.ExportHook.SyncStream` | src/hooks/useExport.ts:20-27 | opens the stream when a job exists and none is open |
| `UseExport.ExportHook.StartExport` | src/hooks/useExport.ts:146-174 | the request is built from the view passed by the calling render and the user id; the new state is `Start` of the old |
| `UseExport.ExportHook.OnExportUpdate` | src/hooks/useExport.ts:31-74 | the new state is `Push` of the old, and the fetch it triggers is `PushFetch` |
| `UseExport.ExportHook.FetchExportStatus` | src/hooks/useExport.ts:96-110 | the new state is `Fetched` of the old |
| `UseExport.ExportHook.PollExportStatus` | src/hooks/useExport.ts:112-144 | the new state is `Polled` of the old |
| `UseExport.ExportHook.OnTick` | src/hooks/useExport.ts:166-168 | a tick of a running interval polls the job that interval was started for |
| `UseExport.ExportHook.DownloadCsv` | src/hooks/useExport.ts:176-205 | refuses unless the job is completed; the file is `tasks_export_<jobId>.csv` |
| `UseExport.ExportHook.Unmount` | src/hooks/useExport.ts:83-93 | the new state is `Unmounted` of the old |

## Left out

- HTTP transport, `EventSource` construction and URLs, `JSON.parse` of payloads: requests are modelled as request values, and replies and events as already-decoded inputs.
- Toasts and console logging: they do not affect state.
- The lifecycle of the push stream in `src/App.tsx` (open one stream, close it on cleanup): it holds no state the list operations read. Only its three handlers are modelled.
- React rendering, memoisation, state batching and query caching or refetching: each handler runs to completion as one step. A `setState` after unmount has no effect; the `mounted` field models this in the export hook, where refs and intervals keep working after unmount (`UseExport.LateReplyLeaksInterval`).
- Interleaving of an in-flight reorder request with push events: the reorder request's outcome is a single input to one step.
- The initial load's sorted response array is also the array react-query caches (src/App.tsx:21-22); that sharing is not modelled.
- Timing of `setInterval`: a tick is an input naming a running interval (`UseExport.ExportHook.OnTick`).
- The download's blob, object URL and DOM link steps, and its failure path: they change no hook state. Only the guard, path and file name are modelled.
- `orderIndex`, `version` and dates are integers. Fractional or non-finite numbers, and the exponent notation JavaScript uses for very large numbers in template literals, are not modelled.
- `arrayMove` with negative or out-of-range indices: the handler only passes found indices.
- Export `status` values other than the four declared ones are not modelled.
- `TasksPage.TaskKey`: its contract states only the `task-` prefix for tasks without an id. The full key is its definition, and `TasksPage.PositionalKeys` gives what the key distinguishes.
- Authentication, token refresh, routing, the creation wizard, task rendering and sanitising: src/context/AuthProvider.tsx, src/components/RequireAuth.tsx, src/api/api.ts, src/pages/CreateTaskPage.tsx, src/components/Task.tsx, src/components/Navbar.tsx, src/pages/LoginPage.tsx, src/pages/Homepage.tsx and src/main.tsx are not part of this model.

=== FILE: app.dfy ===
/**
 * The list of tasks kept by the application shell: the active view (`status`), the
 * ordered `tasks`, the list operations the push stream is routed to, and the
 * request payloads of the reorder, toggle and edit mutations.
 */
module App {
  import opened TaskType
  import opened TaskSort
  import opened Seqs

  /** The `status` query parameter of the tasks query: `false` is the open view. */
  function ViewQuery(status: bool): (q: string)
    ensures q == "open" <==> !status
    ensures q == "done" <==> status
  {
    if !status then "open" else "done"
  }

  /** `oldTasks.map(t => t.id === u.id ? u : t)` */
  function ReplaceById(tasks: seq<Task>, u: Task): (r: seq<Task>)
    ensures |r| == |tasks|
    ensures forall k :: 0 <= k < |tasks| ==> r[k] == if tasks[k].id == u.id then u else tasks[k]
  {
    seq(|tasks|, k requires 0 <= k < |tasks| => if tasks[k].id == u.id then u else tasks[k])
  }

  /** The tasks whose `done` matches the active view. */
  function InView(tasks: seq<Task>, status: bool): (r: seq<Task>)
    ensures |r| <= |tasks|
    ensures forall t :: t in r <==> t in tasks && t.done == status
  {
    Filter(tasks, (t: Task) => t.done == status)
  }

  /** `updateTask`: replace by id, keep the active view, sort. Never appends. */
  function UpdateTask(tasks: seq<Task>, u: Task, status: bool): (r: seq<Task>)
    ensures |r| <= |tasks|
    ensures SortedByOrder(r)
  {
    SortByOrder(InView(ReplaceById(tasks, u), status))
  }

  /** The tasks whose `id` is not listed in `ids`. */
  function WithoutIds(tasks: seq<Task>, ids: seq<string>): (r: seq<Task>)
    ensures |r| <= |tasks|
    ensures forall t :: t in r <==> t in tasks && t.id !in ids
  {
    Filter(tasks, (t: Task) => t.id !in ids)
  }

  /** `mergeAndSortTasks`: drop every old task whose id is in the batch, append the batch, sort. */
  function MergeAndSortTasks(tasks: seq<Task>, batch: seq<Task>): (r: seq<Task>)
    ensures |r| == |WithoutIds(tasks, Ids(batch))| + |batch|
    ensures SortedByOrder(r)
  {
    SortByOrder(WithoutIds(tasks, Ids(batch)) + batch)
  }

  /** The `task_created` handler: append the pushed task and sort, without de-duplication. */
  function AppendCreated(tasks: seq<Task>, t: Task): (r: seq<Task>)
    ensures |r| == |tasks| + 1
    ensures SortedByOrder(r)
  {
    SortByOrder(tasks + [t])
  }

  lemma UpdateTaskContents(tasks: seq<Task>, u: Task, status: bool)
    ensures forall t :: t in UpdateTask(tasks, u, status) ==> t.done == status
    ensures forall t :: t in UpdateTask(tasks, u, status) ==> t == u || (t in tasks && t.id != u.id)
    ensures u.done != status ==> forall t :: t in UpdateTask(tasks, u, status) ==> t.id != u.id
    ensures forall t :: t in tasks && t.id != u.id && t.done == status ==> t in UpdateTask(tasks, u, status)
    ensures (exists k :: 0 <= k < |tasks| && tasks[k].id == u.id) && u.done == status ==> u in UpdateTask(tasks, u, status)
  {
    var replaced := ReplaceById(tasks, u);
    SortKeepsMembers(InView(replaced, status));
    forall t | t in replaced
      ensures t == u || (t in tasks && t.id != u.id)
    {
      var k :| 0 <= k < |replaced| && replaced[k] == t;
    }
    forall t | t in tasks && t.id != u.id
      ensures t in replaced
    {
      var k :| 0 <= k < |tasks| && tasks[k] == t;
      assert replaced[k] == t;
    }
    if k :| 0 <= k < |tasks| && tasks[k].id == u.id {
      assert replaced[k] == u;
    }
  }

  /** An update for an id that is not in the list only re-filters and re-sorts it. */
  lemma UpdateUnknownId(tasks: seq<Task>, u: Task, status: bool)
    requires forall k :: 0 <= k < |tasks| ==> tasks[k].id != u.id
    ensures UpdateTask(tasks, u, status) == SortByOrder(InView(tasks, status))
  {
    assert ReplaceById(tasks, u) == tasks;
  }

  /** Applying the same update twice gives the list that applying it once gives. */
  lemma UpdateTaskIdempotent(tasks: seq<Task>, u: Task, status: bool)
    ensures UpdateTask(UpdateTask(tasks, u, status), u, status) == UpdateTask(tasks, u, status)
  {
    var once := UpdateTask(tasks, u, status);
    UpdateTaskContents(tasks, u, status);
    var replaced := ReplaceById(once, u);
    forall k | 0 <= k < |once|
      ensures replaced[k] == once[k]
    {
      assert once[k] in once;
    }
    assert replaced == once;
    forall t | t in once
      ensures t.done == status
    {
    }
    FilterKeepsAll(once, (t: Task) => t.done == status);
    SortOfSorted(once);
  }

  /**
   * A `task_updated` push that moves a visible task out of the active view removes
   * it: with distinct ids and every task in view, the list shrinks by exactly one.
   */
  lemma UpdateOutOfViewShrinks(tasks: seq<Task>, u: Task, status: bool, m: nat)
    requires DistinctIds(tasks)
    requires forall k :: 0 <= k < |tasks| ==> tasks[k].done == status
    requires m < |tasks| && tasks[m].id == u.id && u.done != status
    ensures |UpdateTask(tasks, u, status)| == |tasks| - 1
    ensures forall t :: t in UpdateTask(tasks, u, status) ==> t.id != u.id
  {
    var replaced := ReplaceById(tasks, u);
    FilterDropsOne(replaced, (t: Task) => t.done == status, m);
    UpdateTaskContents(tasks, u, status);
  }

  lemma MergeContents(tasks: seq<Task>, batch: seq<Task>)
    ensures multiset(MergeAndSortTasks(tasks, batch)) == multiset(WithoutIds(tasks, Ids(batch))) + multiset(batch)
    ensures forall t :: t in batch ==> t in MergeAndSortTasks(tasks, batch)
    ensures forall t :: t in MergeAndSortTasks(tasks, batch) && t.id in Ids(batch) ==> t in batch
    ensures forall t :: t in tasks && t.id !in Ids(batch) ==> t in MergeAndSortTasks(tasks, batch)
  {
    var kept := WithoutIds(tasks, Ids(batch));
    var r := MergeAndSortTasks(tasks, batch);
    SortIsPermutation(kept + batch);
    forall t | t in batch
      ensures t in r
    {
      assert t in multiset(kept + batch);
    }
    forall t | t in r && t.id in Ids(batch)
      ensures t in batch
    {
      assert t in multiset(kept + batch);
      assert t !in kept;
    }
    forall t | t in tasks && t.id !in Ids(batch)
      ensures t in r
    {
      assert t in kept;
      assert t in multiset(kept + batch);
    }
  }

  lemma AppendCreatedContents(tasks: seq<Task>, t: Task)
    ensures multiset(AppendCreated(tasks, t)) == multiset(tasks) + multiset{t}
    ensures t in AppendCreated(tasks, t)
  {
    SortIsPermutation(tasks + [t]);
    assert t in multiset(tasks + [t]);
  }

  /** One `{id, orderIndex, version}` entry of the reorder request. */
  datatype ReorderItem = ReorderItem(id: string, orderIndex: int, version: int)

  /** `PATCH /tasks/reorder` with `{items}`. */
  datatype ReorderRequest = ReorderRequest(path: string, items: seq<ReorderItem>)

  /** `PATCH /tasks/{id}` with `{done}`. */
  datatype StatusRequest = StatusRequest(path: string, done: bool)

  /** `PATCH /tasks/{id}` with the editable fields. */
  datatype FieldsRequest = FieldsRequest(path: string, title: string, description: string, priority: Priority, dueDate: int)

  /** The items of the reorder request: one per task, in list order. */
  function ReorderPayload(tasks: seq<Task>): (items: seq<ReorderItem>)
    ensures |items| == |tasks|
    ensures forall k :: 0 <= k < |tasks| ==>
      items[k].id == tasks[k].id && items[k].orderIndex == tasks[k].orderIndex && items[k].version == tasks[k].version
  {
    seq(|tasks|, k requires 0 <= k < |tasks| => ReorderItem(tasks[k].id, tasks[k].orderIndex, tasks[k].version))
  }

  class TaskStore {
    var tasks: seq<Task>
    var status: bool

    constructor ()
      ensures tasks == [] && !status
    {
      tasks := [];
      status := false;
    }

    /** The tasks query for the active view: installs exactly the fetched tasks, sorted. */
    method Load(fetched: seq<Task>) returns (path: string)
      modifies this`tasks
      ensures path == "/tasks?status=" + ViewQuery(status)
      ensures tasks == SortByOrder(fetched)
    {
      path := "/tasks?status=" + ViewQuery(status);
      var a := ToArray(fetched);
      SortTasks(a);
      tasks := a[..];
    }

    /** The "Show completed tasks" checkbox: flips the active view. */
    method ToggleView()
      modifies this`status
      ensures status == !old(status)
    {
      status := !status;
    }

    method OnTaskCreated(t: Task)
      modifies this`tasks
      ensures tasks == AppendCreated(old(tasks), t)
    {
      var a := ToArray(tasks + [t]);
      SortTasks(a);
      tasks := a[..];
    }

    method OnTaskReordered(batch: seq<Task>)
      modifies this`tasks
      ensures tasks == MergeAndSortTasks(old(tasks), batch)
    {
      var a := ToArray(WithoutIds(tasks, Ids(batch)) + batch);
      SortTasks(a);
      tasks := a[..];
    }

    method OnTaskUpdated(u: Task)
      modifies this`tasks
      ensures tasks == UpdateTask(old(tasks), u, status)
    {
      var a := ToArray(InView(ReplaceById(tasks, u), status));
      SortTasks(a);
      tasks := a[..];
    }

    /** The toggle mutation: asks the backend to flip `done`; the local list is not touched. */
    method ToggleDone(task: Task) returns (req: StatusRequest)
      ensures req.path == "/tasks/" + task.id
      ensures req.done == !task.done
    {
      req := StatusRequest("/tasks/" + task.id, !task.done);
    }

    /** The edit mutation: sends the editable fields of `task`; the local list is not touched. */
    method UpdateFields(task: Task) returns (req: FieldsRequest)
      ensures req.path == "/tasks/" + task.id
      ensures req.title == task.title && req.description == task.description
      ensures req.priority == task.priority && req.dueDate == task.dueDate
    {
      req := FieldsRequest("/tasks/" + task.id, task.title, task.description, task.priority, task.dueDate);
    }

    /** The reorder mutation: one item per task, in the same order. */
    method ReOrder(changed: seq<Task>) returns (req: ReorderRequest)
      ensures req.path == "/tasks/reorder"
      ensures Ids(changed) == seq(|req.items|, k requires 0 <= k < |req.items| => req.items[k].id)
      ensures forall k :: 0 <= k < |changed| ==>
        req.items[k].orderIndex == changed[k].orderIndex && req.items[k].version == changed[k].version
    {
      req := ReorderRequest("/tasks/reorder", ReorderPayload(changed));
    }
  }

  /** A fresh array holding `s`: the copies the source makes with spreads and `map`/`filter`. */
  method ToArray(s: seq<Task>) returns (a: array<Task>)
    ensures fresh(a) && a[..] == s
  {
    a := new Task[|s|](k requires 0 <= k < |s| => s[k]);
  }
}

=== FILE: seqs.dfy ===
/** Sequence helpers shared by the model: the `Array.prototype.filter` of the source. */
module Seqs {

  /** Keeps, in order, the elements of `s` that satisfy `p`. */
  function Filter<T(!new)>(s: seq<T>, p: T -> bool): (r: seq<T>)
    ensures |r| <= |s|
    ensures forall x :: x in r <==> x in s && p(x)
  {
    if s == [] then []
    else
      assert s == [s[0]] + s[1..];
      (if p(s[0]) then [s[0]] else []) + Filter(s[1..], p)
  }

  /** `a` can be obtained from `b` by deleting elements. */
  predicate IsSubsequence<T(==)>(a: seq<T>, b: seq<T>)
  {
    a == [] || (b != [] && ((a[0] == b[0] && IsSubsequence(a[1..], b[1..])) || IsSubsequence(a, b[1..])))
  }

  lemma {:induction false} FilterIsSubsequence<T(!new)>(s: seq<T>, p: T -> bool)
    ensures IsSubsequence(Filter(s, p), s)
  {
    if s != [] {
      FilterIsSubsequence(s[1..], p);
      var r := Filter(s, p);
      if p(s[0]) {
        assert r == [s[0]] + Filter(s[1..], p);
        assert r[0] == s[0] && r[1..] == Filter(s[1..], p);
      } else {
        assert r == Filter(s[1..], p);
      }
    }
  }

  /** Filtering by a predicate every element satisfies returns the sequence itself. */
  lemma {:induction false} FilterKeepsAll<T(!new)>(s: seq<T>, p: T -> bool)
    requires forall x :: x in s ==> p(x)
    ensures Filter(s, p) == s
  {
    if s != [] {
      FilterKeepsAll(s[1..], p);
      assert s == [s[0]] + s[1..];
    }
  }

  /** Filtering out exactly one element shortens the sequence by one. */
  lemma {:induction false} FilterDropsOne<T(!new)>(s: seq<T>, p: T -> bool, m: nat)
    requires m < |s| && !p(s[m])
    requires forall k :: 0 <= k < |s| && k != m ==> p(s[k])
    ensures |Filter(s, p)| == |s| - 1
  {
    if m == 0 {
      FilterKeepsAll(s[1..], p);
    } else {
      FilterDropsOne(s[1..], p, m - 1);
    }
  }
}

=== FILE: task_sort.dfy ===
/**
 * `sortTasks`: `Array.prototype.sort` with the comparator `a.orderIndex - b.orderIndex`.
 * The language requires that sort to be stable, so its result is the stable sort by
 * `orderIndex`, given here as an insertion sort (`SortByOrder`) and run in place on an
 * array by `SortTasks`, as the source does.
 */
module TaskSort {
  import opened TaskType

  predicate SortedByOrder(s: seq<Task>)
  {
    forall i, j :: 0 <= i < j < |s| ==> s[i].orderIndex <= s[j].orderIndex
  }

  /** Places `x` behind every trailing element whose `orderIndex` exceeds its own. */
  function InsertByOrder(t: seq<Task>, x: Task): (r: seq<Task>)
    ensures |r| == |t| + 1
  {
    if t == [] || t[|t| - 1].orderIndex <= x.orderIndex then t + [x]
    else InsertByOrder(t[..|t| - 1], x) + [t[|t| - 1]]
  }

  lemma {:induction false} InsertIsPermutation(t: seq<Task>, x: Task)
    ensures multiset(InsertByOrder(t, x)) == multiset(t) + multiset{x}
  {
    if t != [] && t[|t| - 1].orderIndex > x.orderIndex {
      assert t == t[..|t| - 1] + [t[|t| - 1]];
      InsertIsPermutation(t[..|t| - 1], x);
    }
  }

  /** Inserting under a common upper bound keeps every `orderIndex` under it. */
  lemma {:induction false} InsertBounded(t: seq<Task>, x: Task, b: int)
    requires forall i :: 0 <= i < |t| ==> t[i].orderIndex <= b
    requires x.orderIndex <= b
    ensures forall i :: 0 <= i < |InsertByOrder(t, x)| ==> InsertByOrder(t, x)[i].orderIndex <= b
  {
    if t != [] && t[|t| - 1].orderIndex > x.orderIndex {
      InsertBounded(t[..|t| - 1], x, b);
    }
  }

  lemma {:induction false} InsertKeepsSorted(t: seq<Task>, x: Task)
    requires SortedByOrder(t)
    ensures SortedByOrder(InsertByOrder(t, x))
  {
    if t != [] && t[|t| - 1].orderIndex > x.orderIndex {
      var last := t[|t| - 1];
      var init := t[..|t| - 1];
      var front := InsertByOrder(init, x);
      InsertKeepsSorted(init, x);
      InsertBounded(init, x, last.orderIndex);
      var r := front + [last];
      forall i, j | 0 <= i < j < |r|
        ensures r[i].orderIndex <= r[j].orderIndex
      {
        assert r[i] == front[i];
        if j < |front| {
          assert r[j] == front[j];
        }
      }
    }
  }

  /** The stable sort by ascending `orderIndex`. */
  function SortByOrder(s: seq<Task>): (r: seq<Task>)
    ensures |r| == |s|
    ensures SortedByOrder(r)
  {
    if s == [] then []
    else
      InsertKeepsSorted(SortByOrder(s[..|s| - 1]), s[|s| - 1]);
      InsertByOrder(SortByOrder(s[..|s| - 1]), s[|s| - 1])
  }

  /** Sorting neither adds nor drops a task. */
  lemma {:induction false} SortIsPermutation(s: seq<Task>)
    ensures multiset(SortByOrder(s)) == multiset(s)
  {
    if s != [] {
      assert s == s[..|s| - 1] + [s[|s| - 1]];
      SortIsPermutation(s[..|s| - 1]);
      InsertIsPermutation(SortByOrder(s[..|s| - 1]), s[|s| - 1]);
    }
  }

  /** Sorting keeps exactly the tasks it was given. */
  lemma SortKeepsMembers(s: seq<Task>)
    ensures forall t :: t in SortByOrder(s) <==> t in s
  {
    SortIsPermutation(s);
    forall t
      ensures t in SortByOrder(s) <==> t in s
    {
      assert t in SortByOrder(s) <==> t in multiset(SortByOrder(s));
      assert t in s <==> t in multiset(s);
    }
  }

  /** The tasks of `s` whose `orderIndex` is `k`, in the order they appear. */
  function WithOrder(s: seq<Task>, k: int): seq<Task>
  {
    if s == [] then []
    else WithOrder(s[..|s| - 1], k) + (if s[|s| - 1].orderIndex == k then [s[|s| - 1]] else [])
  }

  lemma {:induction false} WithOrderInsert(t: seq<Task>, x: Task, k: int)
    ensures WithOrder(InsertByOrder(t, x), k) == WithOrder(t, k) + (if x.orderIndex == k then [x] else [])
  {
    var r := InsertByOrder(t, x);
    if t == [] || t[|t| - 1].orderIndex <= x.orderIndex {
      assert r[..|r| - 1] == t;
    } else {
      var last := t[|t| - 1];
      var front := InsertByOrder(t[..|t| - 1], x);
      assert r == front + [last];
      assert r[..|r| - 1] == front;
      WithOrderInsert(t[..|t| - 1], x, k);
    }
  }

  /** Stability: tasks sharing an `orderIndex` keep their relative order. */
  lemma {:induction false} SortIsStable(s: seq<Task>, k: int)
    ensures WithOrder(SortByOrder(s), k) == WithOrder(s, k)
  {
    if s != [] {
      SortIsStable(s[..|s| - 1], k);
      WithOrderInsert(SortByOrder(s[..|s| - 1]), s[|s| - 1], k);
    }
  }

  /** Sorting an already sorted list leaves it as it is. */
  lemma {:induction false} SortOfSorted(s: seq<Task>)
    requires SortedByOrder(s)
    ensures SortByOrder(s) == s
  {
    if s != [] {
      var front := s[..|s| - 1];
      assert SortedByOrder(front);
      SortOfSorted(front);
      assert s == front + [s[|s| - 1]];
    }
  }

  /** Sorting twice is sorting once. */
  lemma SortIdempotent(s: seq<Task>)
    ensures SortByOrder(SortByOrder(s)) == SortByOrder(s)
  {
    SortOfSorted(SortByOrder(s));
  }

  /** `sortTasks` on the array itself: the result is `SortByOrder` of the old contents. */
  method SortTasks(a: array<Task>)
    modifies a
    ensures a[..] == SortByOrder(old(a[..]))
  {
    ghost var input := a[..];
    var i := 0;
    while i < a.Length
      invariant 0 <= i <= a.Length
      invariant a[..i] == SortByOrder(input[..i])
      invariant a[i..] == input[i..]
    {
      SliceStep(a[..], input, i);
      SortStep(input, i);
      InsertAt(a, i);
      i := i + 1;
    }
    assert input[..a.Length] == input;
  }

  /** Sorting one more element inserts it into the sorted prefix. */
  lemma SortStep(input: seq<Task>, i: nat)
    requires i < |input|
    ensures SortByOrder(input[..i + 1]) == InsertByOrder(SortByOrder(input[..i]), input[i])
  {
    assert input[..i + 1][..i] == input[..i];
  }

  /** The unsorted suffix starts with the next element to insert. */
  lemma SliceStep(cur: seq<Task>, input: seq<Task>, i: nat)
    requires i < |cur| && |cur| == |input| && cur[i..] == input[i..]
    ensures cur[i] == input[i] && cur[i + 1..] == input[i + 1..]
  {
    assert cur[i] == cur[i..][0];
    assert cur[i + 1..] == cur[i..][1..];
    assert input[i + 1..] == input[i..][1..];
  }

  /** One pass of the insertion sort: moves `a[i]` into the sorted prefix `a[..i]`. */
  method InsertAt(a: array<Task>, i: nat)
    requires i < a.Length
    modifies a
    ensures a[..i + 1] == InsertByOrder(old(a[..i]), old(a[i]))
    ensures a[i + 1..] == old(a[i + 1..])
  {
    ghost var sorted := a[..i];
    ghost var rest := a[i + 1..];
    var x := a[i];
    var j := ShiftGreater(a, i, x);
    a[j] := x;
    ghost var target := sorted[..j] + [x] + sorted[j..];
    forall k | 0 <= k <= i
      ensures a[k] == target[k]
    {
      if k < j {
        assert target[k] == sorted[k];
      } else if k > j {
        assert target[k] == sorted[k - 1];
      }
    }
    assert a[..i + 1] == target;
    assert a[i + 1..] == rest;
    InsertSplit(sorted, x, j);
  }

  /**
   * The inner loop of the insertion pass: shifts the elements of `a[..i]` whose
   * `orderIndex` exceeds that of `x` one slot to the right, and returns the gap.
   */
  method ShiftGreater(a: array<Task>, i: nat, x: Task) returns (j: nat)
    requires i < a.Length
    modifies a
    ensures j <= i
    ensures j == 0 || old(a[j - 1]).orderIndex <= x.orderIndex
    ensures forall k :: j <= k < i ==> old(a[k]).orderIndex > x.orderIndex
    ensures forall k :: 0 <= k < j ==> a[k] == old(a[k])
    ensures forall k :: j < k <= i ==> a[k] == old(a[k - 1])
    ensures forall k :: i < k < a.Length ==> a[k] == old(a[k])
  {
    j := i;
    while j > 0 && a[j - 1].orderIndex > x.orderIndex
      invariant 0 <= j <= i
      invariant forall k :: 0 <= k < j ==> a[k] == old(a[k])
      invariant forall k :: j < k <= i ==> a[k] == old(a[k - 1])
      invariant forall k :: i < k < a.Length ==> a[k] == old(a[k])
      invariant forall k :: j <= k < i ==> old(a[k]).orderIndex > x.orderIndex
    {
      a[j] := a[j - 1];
      j := j - 1;
    }
  }

  /** `InsertByOrder` puts `x` right after the last element not greater than it. */
  lemma {:induction false} InsertSplit(t: seq<Task>, x: Task, p: nat)
    requires p <= |t|
    requires p == 0 || t[p - 1].orderIndex <= x.orderIndex
    requires forall k :: p <= k < |t| ==> t[k].orderIndex > x.orderIndex
    ensures InsertByOrder(t, x) == t[..p] + [x] + t[p..]
    decreases |t|
  {
    if p < |t| {
      var init := t[..|t| - 1];
      InsertSplit(init, x, p);
      assert init[..p] == t[..p];
      assert t[p..] == init[p..] + [t[|t| - 1]];
    } else {
      assert t[..p] == t;
    }
  }
}

=== FILE: task_type.dfy ===
/** One task, as exchanged with the backend and kept in the client's list. */
module TaskType {

  datatype Priority = Low | Med | High

  /** Dates are kept as opaque timestamps; the model never inspects them. */
  datatype Task = Task(
    id: string,
    userId: string,
    title: string,
    priority: Priority,
    description: string,
    dueDate: int,
    done: bool,
    orderIndex: int,
    version: int,
    createdAt: int,
    updatedAt: int)

  /** The `id` of every task, in list order. */
  function Ids(s: seq<Task>): (r: seq<string>)
    ensures |r| == |s|
    ensures forall k :: 0 <= k < |s| ==> r[k] == s[k].id
  {
    seq(|s|, k requires 0 <= k < |s| => s[k].id)
  }

  /** No two tasks of `s` share an `id`. */
  predicate DistinctIds(s: seq<Task>)
  {
    forall a, b :: 0 <= a < b < |s| ==> s[a].id != s[b].id
  }
}

=== FILE: tasks_page.dfy ===
/**
 * Drag-and-drop reordering on the board of tasks: identity keys, index lookup, `arrayMove`,
 * renumbering of the affected range, the changed subset sent to the backend, and the
 * optimistic update that is rolled back when the backend call fails.
 */
module TasksPage {
  import opened Wrappers
  import opened TaskType
  import opened Seqs
  import opened App

  // ---------------------------------------------------------------- identity keys

  function DigitChar(d: nat): (c: char)
    requires d < 10
    ensures '0' <= c <= '9' && c as int - '0' as int == d
  {
    "0123456789"[d]
  }

  /** Decimal digits of `n`, as a number is printed in a template literal. */
  function NatToString(n: nat): (s: string)
    ensures |s| > 0
    ensures forall k :: 0 <= k < |s| ==> '0' <= s[k] <= '9'
  {
    if n < 10 then [DigitChar(n)] else NatToString(n / 10) + [DigitChar(n % 10)]
  }

  function IntToString(i: int): (s: string)
    ensures |s| > 0
    ensures (s[0] == '-') <==> i < 0
    ensures forall k :: 0 < k < |s| ==> '0' <= s[k] <= '9'
  {
    if i < 0 then "-" + NatToString(-i) else NatToString(i)
  }

  /** Reads decimal digits back. */
  function ParseNat(s: string): nat
  {
    if s == [] then 0
    else ParseNat(s[..|s| - 1]) * 10 + (if '0' <= s[|s| - 1] <= '9' then s[|s| - 1] as int - '0' as int else 0)
  }

  lemma {:induction false} NatToStringRoundTrip(n: nat)
    ensures ParseNat(NatToString(n)) == n
  {
    if n >= 10 {
      var s := NatToString(n);
      assert s[..|s| - 1] == NatToString(n / 10);
      NatToStringRoundTrip(n / 10);
    }
  }

  /** Reads an optional leading `-` and decimal digits back. */
  function ParseInt(s: string): int
  {
    if |s| > 0 && s[0] == '-' then -(ParseNat(s[1..]) as int) else ParseNat(s)
  }

  /** The printed `orderIndex` reads back as the same number. */
  lemma IntToStringRoundTrip(i: int)
    ensures ParseInt(IntToString(i)) == i
  {
    var s := IntToString(i);
    if i < 0 {
      NegativeString(i);
      var n: nat := -i;
      NatToStringRoundTrip(n);
      assert ParseNat(s[1..]) == n;
    } else {
      assert s == NatToString(i);
      assert s[0] != '-';
      NatToStringRoundTrip(i);
      assert ParseInt(s) == ParseNat(s);
    }
  }

  /** Distinct numbers print differently. */
  lemma IntToStringInjective(a: int, b: int)
    requires IntToString(a) == IntToString(b)
    ensures a == b
  {
    IntToStringRoundTrip(a);
    IntToStringRoundTrip(b);
  }

  lemma NegativeString(i: int)
    requires i < 0
    ensures IntToString(i)[0] == '-' && IntToString(i)[1..] == NatToString(-i)
  {
  }

  /** `t.id || "task-" + orderIndex`: the sortable id of a task; an empty id is falsy. */
  function TaskKey(t: Task): (k: string)
    ensures t.id != "" ==> k == t.id
    ensures t.id == "" ==> |k| > 5 && k[..5] == "task-"
  {
    if t.id != "" then t.id else "task-" + IntToString(t.orderIndex)
  }

  /** Tasks without an id have the same key exactly when they have the same `orderIndex`. */
  lemma PositionalKeys(t1: Task, t2: Task)
    requires t1.id == "" && t2.id == ""
    ensures TaskKey(t1) == TaskKey(t2) <==> t1.orderIndex == t2.orderIndex
  {
    if TaskKey(t1) == TaskKey(t2) {
      assert TaskKey(t1)[5..] == IntToString(t1.orderIndex);
      assert TaskKey(t2)[5..] == IntToString(t2.orderIndex);
      IntToStringInjective(t1.orderIndex, t2.orderIndex);
    }
  }

  /** `taskIds`: the keys handed to the sortable context, one per task. */
  function TaskIds(tasks: seq<Task>): (keys: seq<string>)
    ensures |keys| == |tasks|
    ensures forall k :: 0 <= k < |tasks| ==> keys[k] == TaskKey(tasks[k])
  {
    seq(|tasks|, k requires 0 <= k < |tasks| => TaskKey(tasks[k]))
  }

  /** `tasks.findIndex(t => key(t) === key)`: the first position with that key. */
  function FindKey(tasks: seq<Task>, key: string): (r: Option<nat>)
    ensures r.Some? ==> r.value < |tasks| && TaskKey(tasks[r.value]) == key
    ensures r.Some? ==> forall k :: 0 <= k < r.value ==> TaskKey(tasks[k]) != key
    ensures r.None? ==> forall k :: 0 <= k < |tasks| ==> TaskKey(tasks[k]) != key
  {
    if tasks == [] then None
    else if TaskKey(tasks[0]) == key then Some(0)
    else
      assert forall k :: 1 <= k < |tasks| ==> tasks[k] == tasks[1..][k - 1];
      match FindKey(tasks[1..], key)
      case None => None
      case Some(i) => Some(i + 1)
  }

  /** The lookup uses the same keys as the sortable context: it succeeds exactly for those. */
  lemma FindKeyAgreesWithTaskIds(tasks: seq<Task>, key: string)
    ensures FindKey(tasks, key).Some? <==> key in TaskIds(tasks)
    ensures FindKey(tasks, key).Some? ==> TaskIds(tasks)[FindKey(tasks, key).value] == key
  {
    if key in TaskIds(tasks) {
      var k :| 0 <= k < |tasks| && TaskIds(tasks)[k] == key;
    }
  }

  // ---------------------------------------------------------------- moving and renumbering

  function Min(a: int, b: int): int { if a <= b then a else b }
  function Max(a: int, b: int): int { if a <= b then b else a }

  /** `arrayMove(s, from, to)`: remove the element at `from`, insert it at `to`. */
  function ArrayMove<T>(s: seq<T>, from: nat, to: nat): (r: seq<T>)
    requires from < |s| && to < |s|
    ensures |r| == |s|
    ensures r[to] == s[from]
    ensures forall k :: 0 <= k < |s| && (k < Min(from, to) || k > Max(from, to)) ==> r[k] == s[k]
    ensures from < to ==> forall k :: from <= k < to ==> r[k] == s[k + 1]
    ensures to < from ==> forall k :: to < k <= from ==> r[k] == s[k - 1]
  {
    var rest := s[..from] + s[from + 1..];
    rest[..to] + [s[from]] + rest[to..]
  }

  lemma ArrayMoveIsPermutation<T>(s: seq<T>, from: nat, to: nat)
    requires from < |s| && to < |s|
    ensures multiset(ArrayMove(s, from, to)) == multiset(s)
  {
    var rest := s[..from] + s[from + 1..];
    assert s == s[..from] + [s[from]] + s[from + 1..];
    assert multiset(s) == multiset(s[..from]) + multiset{s[from]} + multiset(s[from + 1..]);
    assert rest == rest[..to] + rest[to..];
    assert multiset(rest) == multiset(rest[..to]) + multiset(rest[to..]);
    calc {
      multiset(ArrayMove(s, from, to));
      multiset(rest[..to] + [s[from]] + rest[to..]);
      multiset(rest[..to]) + multiset{s[from]} + multiset(rest[to..]);
      multiset(rest) + multiset{s[from]};
      multiset(s);
    }
  }

  /** Gives the tasks at positions `lo..hi` their position as `orderIndex`; the rest are untouched. */
  function Renumber(m: seq<Task>, lo: nat, hi: nat): (r: seq<Task>)
    requires lo <= hi < |m|
    ensures |r| == |m|
    ensures forall k :: lo <= k <= hi ==> r[k] == m[k].(orderIndex := k)
    ensures forall k :: 0 <= k < |m| && (k < lo || k > hi) ==> r[k] == m[k]
  {
    m[..lo]
    + seq(hi - lo + 1, k requires 0 <= k < hi - lo + 1 => m[lo + k].(orderIndex := lo + k))
    + m[hi + 1..]
  }

  /** The list `handleDragEnd` applies optimistically. */
  function Reorder(tasks: seq<Task>, from: nat, to: nat): (r: seq<Task>)
    requires from < |tasks| && to < |tasks|
    ensures |r| == |tasks|
    ensures r[to] == tasks[from].(orderIndex := to)
    ensures forall k :: 0 <= k < |tasks| && (k < Min(from, to) || k > Max(from, to)) ==> r[k] == tasks[k]
  {
    Renumber(ArrayMove(tasks, from, to), Min(from, to), Max(from, to))
  }

  /**
   * Shape of the reordered list: same length, the ids moved exactly as `arrayMove`
   * moves them (so the same multiset of ids), the dragged task at the destination,
   * positions outside the range untouched, positions inside renumbered to their index.
   */
  lemma ReorderShape(tasks: seq<Task>, from: nat, to: nat)
    requires from < |tasks| && to < |tasks|
    ensures |Reorder(tasks, from, to)| == |tasks|
    ensures Ids(Reorder(tasks, from, to)) == ArrayMove(Ids(tasks), from, to)
    ensures multiset(Ids(Reorder(tasks, from, to))) == multiset(Ids(tasks))
    ensures Reorder(tasks, from, to)[to] == tasks[from].(orderIndex := to)
    ensures forall k :: 0 <= k < |tasks| && (k < Min(from, to) || k > Max(from, to)) ==>
      Reorder(tasks, from, to)[k] == tasks[k]
    ensures forall k :: Min(from, to) <= k <= Max(from, to) ==>
      Reorder(tasks, from, to)[k] == ArrayMove(tasks, from, to)[k].(orderIndex := k)
  {
    ReorderIds(tasks, from, to);
    ArrayMoveIsPermutation(Ids(tasks), from, to);
  }

  /** Renumbering keeps ids, so the ids of the reordered list are the moved ids. */
  lemma ReorderIds(tasks: seq<Task>, from: nat, to: nat)
    requires from < |tasks| && to < |tasks|
    ensures Ids(Reorder(tasks, from, to)) == ArrayMove(Ids(tasks), from, to)
  {
    var r := Reorder(tasks, from, to);
    var m := ArrayMove(tasks, from, to);
    var ids := ArrayMove(Ids(tasks), from, to);
    forall k | 0 <= k < |r|
      ensures Ids(r)[k] == ids[k]
    {
      assert r[k].id == m[k].id;
      if k < Min(from, to) || k > Max(from, to) {
        assert ids[k] == Ids(tasks)[k];
      } else if k == to {
        assert ids[k] == Ids(tasks)[from];
      } else if from < to {
        assert m[k] == tasks[k + 1];
        assert ids[k] == Ids(tasks)[k + 1];
      } else {
        assert m[k] == tasks[k - 1];
        assert ids[k] == Ids(tasks)[k - 1];
      }
    }
  }

  /** A list numbered by position stays numbered by position after a drag. */
  lemma ReorderKeepsPositions(tasks: seq<Task>, from: nat, to: nat)
    requires from < |tasks| && to < |tasks|
    requires forall k :: 0 <= k < |tasks| ==> tasks[k].orderIndex == k
    ensures forall k :: 0 <= k < |tasks| ==> Reorder(tasks, from, to)[k].orderIndex == k
  {
    ReorderShape(tasks, from, to);
  }

  // ---------------------------------------------------------------- the changed subset

  /** `originalTasks.find(t => t.id === id)`: the first task with that id. */
  function FindById(tasks: seq<Task>, id: string): (r: Option<Task>)
    ensures r.Some? ==> r.value.id == id
    ensures r.Some? ==> exists k :: 0 <= k < |tasks| && tasks[k] == r.value && forall j :: 0 <= j < k ==> tasks[j].id != id
    ensures r.None? ==> forall k :: 0 <= k < |tasks| ==> tasks[k].id != id
  {
    if tasks == [] then None
    else if tasks[0].id == id then Some(tasks[0])
    else
      var r := FindById(tasks[1..], id);
      if r.Some? then
        ghost var k :| 0 <= k < |tasks[1..]| && tasks[1..][k] == r.value && forall j :: 0 <= j < k ==> tasks[1..][j].id != id;
        assert tasks[k + 1] == r.value;
        r
      else r
  }

  /** The snapshot task with this id exists and had another `orderIndex`. */
  predicate OrderChanged(snapshot: seq<Task>, t: Task)
    ensures OrderChanged(snapshot, t) ==>
      exists k :: 0 <= k < |snapshot| && snapshot[k].id == t.id && snapshot[k].orderIndex != t.orderIndex
    ensures (forall k :: 0 <= k < |snapshot| ==> snapshot[k].id != t.id) ==> !OrderChanged(snapshot, t)
  {
    match FindById(snapshot, t.id)
    case Some(o) => o.orderIndex != t.orderIndex
    case None => false
  }

  /** `changedTasks`: the tasks of the renumbered range whose `orderIndex` moved. */
  function ChangedTasks(updated: seq<Task>, snapshot: seq<Task>, lo: nat, hi: nat): (c: seq<Task>)
    requires lo <= hi < |updated|
    ensures forall t :: t in c <==> t in updated[lo..hi + 1] && OrderChanged(snapshot, t)
    ensures IsSubsequence(c, updated[lo..hi + 1])
  {
    FilterIsSubsequence(updated[lo..hi + 1], (t: Task) => OrderChanged(snapshot, t));
    Filter(updated[lo..hi + 1], (t: Task) => OrderChanged(snapshot, t))
  }

  /**
   * With distinct ids, a task in the renumbered range is sent exactly when the
   * position it lands on differs from the `orderIndex` it had before the drag.
   */
  lemma ChangedExactly(tasks: seq<Task>, from: nat, to: nat, k: nat)
    requires from < |tasks| && to < |tasks| && DistinctIds(tasks)
    requires Min(from, to) <= k <= Max(from, to)
    ensures Reorder(tasks, from, to)[k] in ChangedTasks(Reorder(tasks, from, to), tasks, Min(from, to), Max(from, to))
        <==> ArrayMove(tasks, from, to)[k].orderIndex != k
  {
    ChangedAt(Reorder(tasks, from, to), tasks, Min(from, to), Max(from, to), k);
    ReorderAt(tasks, from, to, k);
    MovedTaskFound(tasks, from, to, k);
  }

  /** A task of the renumbered range is in the changed subset exactly when its order moved. */
  lemma ChangedAt(updated: seq<Task>, snapshot: seq<Task>, lo: nat, hi: nat, k: nat)
    requires lo <= k <= hi < |updated|
    ensures updated[k] in ChangedTasks(updated, snapshot, lo, hi) <==> OrderChanged(snapshot, updated[k])
  {
    assert updated[lo..hi + 1][k - lo] == updated[k];
  }

  /** Inside the range, the reordered list holds the moved task renumbered to its position. */
  lemma ReorderAt(tasks: seq<Task>, from: nat, to: nat, k: nat)
    requires from < |tasks| && to < |tasks|
    requires Min(from, to) <= k <= Max(from, to)
    ensures Reorder(tasks, from, to)[k] == ArrayMove(tasks, from, to)[k].(orderIndex := k)
  {
  }

  /** With distinct ids, the pre-drag lookup of a moved task finds that very task. */
  lemma MovedTaskFound(tasks: seq<Task>, from: nat, to: nat, k: nat)
    requires from < |tasks| && to < |tasks| && DistinctIds(tasks) && k < |tasks|
    ensures FindById(tasks, ArrayMove(tasks, from, to)[k].id) == Some(ArrayMove(tasks, from, to)[k])
  {
    var m := ArrayMove(tasks, from, to);
    ArrayMoveIsPermutation(tasks, from, to);
    assert m[k] in multiset(m);
    FindByIdDistinct(tasks, m[k]);
  }

  /** With distinct ids, looking up a task's id finds that very task. */
  lemma FindByIdDistinct(tasks: seq<Task>, t: Task)
    requires DistinctIds(tasks) && t in tasks
    ensures FindById(tasks, t.id) == Some(t)
  {
    var p :| 0 <= p < |tasks| && tasks[p] == t;
    var f := FindById(tasks, t.id);
    var q :| 0 <= q < |tasks| && tasks[q] == f.value && forall j :: 0 <= j < q ==> tasks[j].id != t.id;
    assert q == p;
  }

  // ---------------------------------------------------------------- handleDragEnd

  /** Source and destination positions of a drop, or `None` when the handler returns early. */
  function LocateDrag(tasks: seq<Task>, active: string, over: Option<string>): (r: Option<(nat, nat)>)
    ensures r.Some? <==> (over.Some? && active != over.value
      && FindKey(tasks, active).Some? && FindKey(tasks, over.value).Some?)
    ensures r.Some? ==> (r.value.0 < |tasks| && r.value.1 < |tasks|
      && TaskKey(tasks[r.value.0]) == active && TaskKey(tasks[r.value.1]) == over.value)
  {
    if over.None? || active == over.value then None
    else
      match (FindKey(tasks, active), FindKey(tasks, over.value))
      case (Some(i), Some(j)) => Some((i, j))
      case _ => None
  }

  /** What one drop does: the list left behind and the reorder items sent, if any. */
  datatype DragOutcome = DragOutcome(tasks: seq<Task>, sent: Option<seq<ReorderItem>>)

  function DragEnd(tasks: seq<Task>, active: string, over: Option<string>, gatewayOk: bool): (o: DragOutcome)
    ensures LocateDrag(tasks, active, over).None? ==> o.tasks == tasks && o.sent.None?
    ensures LocateDrag(tasks, active, over).Some? ==>
      var (i, j) := LocateDrag(tasks, active, over).value;
      var changed := ChangedTasks(Reorder(tasks, i, j), tasks, Min(i, j), Max(i, j));
      && (o.sent.Some? <==> |changed| > 0)
      && (o.sent.Some? ==> o.sent.value == ReorderPayload(changed))
      && o.tasks == if o.sent.Some? && !gatewayOk then tasks else Reorder(tasks, i, j)
  {
    match LocateDrag(tasks, active, over)
    case None => DragOutcome(tasks, None)
    case Some((i, j)) =>
      var updated := Reorder(tasks, i, j);
      var changed := ChangedTasks(updated, tasks, Min(i, j), Max(i, j));
      if |changed| == 0 then DragOutcome(updated, None)
      else if gatewayOk then DragOutcome(updated, Some(ReorderPayload(changed)))
      else DragOutcome(tasks, Some(ReorderPayload(changed)))
  }

  /** A failed backend call leaves exactly the list the drag started from. */
  lemma DragRollback(tasks: seq<Task>, active: string, over: Option<string>)
    ensures DragEnd(tasks, active, over, false).sent.Some? ==> DragEnd(tasks, active, over, false).tasks == tasks
    ensures DragEnd(tasks, active, over, false).sent.None? ==> DragEnd(tasks, active, over, false) == DragEnd(tasks, active, over, true)
  {
  }

  /** Dropping a task on itself, on nothing, or with an unknown key changes nothing and sends nothing. */
  lemma DragNoOp(tasks: seq<Task>, active: string, over: Option<string>, gatewayOk: bool)
    requires over.None? || active == over.value
      || (forall k :: 0 <= k < |tasks| ==> TaskKey(tasks[k]) != active)
      || (forall k :: 0 <= k < |tasks| ==> TaskKey(tasks[k]) != over.value)
    ensures DragEnd(tasks, active, over, gatewayOk) == DragOutcome(tasks, None)
  {
  }

  function Sample(id: string, orderIndex: int): Task
  {
    Task(id, "u", "", Low, "", 0, false, orderIndex, 1, 0, 0)
  }

  function ScenarioTasks(): seq<Task>
  {
    [Sample("A", 0), Sample("B", 1), Sample("C", 2)]
  }

  lemma ScenarioLocate()
    ensures LocateDrag(ScenarioTasks(), "A", Some("C")) == Some((0, 2))
  {
    var tasks := ScenarioTasks();
    assert TaskKey(tasks[0]) == "A";
    assert FindKey(tasks, "A") == Some(0);
    assert TaskKey(tasks[2]) == "C";
    assert FindKey(tasks[2..], "C") == Some(0);
    assert tasks[1..][1..] == tasks[2..];
    assert FindKey(tasks[1..], "C") == Some(1);
    assert FindKey(tasks, "C") == Some(2);
  }

  lemma ScenarioReorder()
    ensures Reorder(ScenarioTasks(), 0, 2) == [Sample("B", 0), Sample("C", 1), Sample("A", 2)]
  {
  }

  lemma ScenarioChanged()
    ensures ChangedTasks([Sample("B", 0), Sample("C", 1), Sample("A", 2)], ScenarioTasks(), 0, 2)
      == [Sample("B", 0), Sample("C", 1), Sample("A", 2)]
  {
    var tasks := ScenarioTasks();
    var updated := [Sample("B", 0), Sample("C", 1), Sample("A", 2)];
    assert FindById(tasks, "A") == Some(tasks[0]);
    assert FindById(tasks[1..], "B") == Some(tasks[1]);
    assert FindById(tasks, "B") == Some(tasks[1]);
    assert tasks[1..][1..] == tasks[2..];
    assert FindById(tasks[2..], "C") == Some(tasks[2]);
    assert FindById(tasks[1..], "C") == Some(tasks[2]);
    assert FindById(tasks, "C") == Some(tasks[2]);
    assert OrderChanged(tasks, updated[0]);
    assert OrderChanged(tasks, updated[1]);
    assert OrderChanged(tasks, updated[2]);
    assert forall t :: t in updated ==> OrderChanged(tasks, t);
    assert updated[0..3] == updated;
    FilterKeepsAll(updated, (t: Task) => OrderChanged(tasks, t));
  }

  lemma ScenarioPayload()
    ensures ReorderPayload([Sample("B", 0), Sample("C", 1), Sample("A", 2)])
      == [ReorderItem("B", 0, 1), ReorderItem("C", 1, 1), ReorderItem("A", 2, 1)]
  {
  }

  /** Dropping A on C in `[A:0, B:1, C:2]` gives `[B:0, C:1, A:2]` and sends all three. */
  lemma DragScenario()
    ensures DragEnd(ScenarioTasks(), "A", Some("C"), true)
      == DragOutcome([Sample("B", 0), Sample("C", 1), Sample("A", 2)],
                     Some([ReorderItem("B", 0, 1), ReorderItem("C", 1, 1), ReorderItem("A", 2, 1)]))
  {
    var tasks := ScenarioTasks();
    var updated := [Sample("B", 0), Sample("C", 1), Sample("A", 2)];
    ScenarioLocate();
    assert Min(0, 2) == 0 && Max(0, 2) == 2;
    ScenarioReorder();
    ScenarioChanged();
    ScenarioPayload();
    assert ChangedTasks(Reorder(tasks, 0, 2), tasks, 0, 2) == updated;
  }

  /** The board page: `hasReordered` plus the shared task store it writes through `setTasks`. */
  class TasksPage {
    const store: TaskStore
    var hasReordered: bool

    constructor (store: TaskStore)
      ensures this.store == store && !hasReordered
    {
      this.store := store;
      hasReordered := false;
    }

    /**
     * `handleDragEnd`: the gateway is the reorder mutation, whose outcome is the
     * input `gatewayOk`; `sent` is what was passed to it, if it was called.
     */
    method HandleDragEnd(active: string, over: Option<string>, gatewayOk: bool) returns (sent: Option<seq<ReorderItem>>)
      modifies this, store`tasks
      ensures store.tasks == DragEnd(old(store.tasks), active, over, gatewayOk).tasks
      ensures sent == DragEnd(old(store.tasks), active, over, gatewayOk).sent
      ensures hasReordered == (old(hasReordered) || LocateDrag(old(store.tasks), active, over).Some?)
    {
      sent := None;
      if over.None? || active == over.value {
        return;
      }
      var oldIndex := FindKey(store.tasks, active);
      var newIndex := FindKey(store.tasks, over.value);
      if oldIndex.Some? && newIndex.Some? {
        var originalTasks := store.tasks;
        hasReordered := true;
        var i, j := oldIndex.value, newIndex.value;
        assert LocateDrag(originalTasks, active, over) == Some((i, j));
        var reorderedTasks := ArrayMove(originalTasks, i, j);
        var startIndex, endIndex := Min(i, j), Max(i, j);
        var updatedTasks := Renumber(reorderedTasks, startIndex, endIndex);
        assert updatedTasks == Reorder(originalTasks, i, j);
        store.tasks := updatedTasks;
        var changedTasks := ChangedTasks(updatedTasks, originalTasks, startIndex, endIndex);
        if |changedTasks| > 0 {
          var req := store.ReOrder(changedTasks);
          assert req.items == ReorderPayload(changedTasks);
          sent := Some(req.items);
          if !gatewayOk {
            store.tasks := originalTasks;
          }
        }
      }
    }
  }
}

=== FILE: use_export.dfy ===
/**
 * The CSV export hook: the export job, the `isExporting` flag, the polling interval
 * handle and the shared event stream handle, driven by the start request, pushed
 * `export_update` events, status fetches, poll ticks, the download guard and unmount.
 * HTTP replies, stream events and timer ticks are inputs; a failed request is `None`.
 */
module UseExport {
  import opened Wrappers

  datatype JobStatus = Pending | Processing | Completed | Failed

  datatype ExportJob = ExportJob(jobId: string, status: JobStatus, downloadUrl: Option<string>, error: Option<string>)

  /** The body of `GET /exports/csv/{jobId}`. */
  datatype StatusReply = StatusReply(status: JobStatus, downloadUrl: Option<string>, error: Option<string>)

  /** A decoded event of the stream. */
  datatype ExportEvent = ExportEvent(eventType: string, jobId: string, status: JobStatus, error: Option<string>)

  /** A running `setInterval`: which job it polls and how often. */
  datatype Interval = Interval(jobId: string, periodMs: nat)

  const PollPeriodMs: nat := 3000

  predicate IsTerminal(status: JobStatus)
  {
    status == Completed || status == Failed
  }

  /** `currentStatus ? "done" : "open"`: the scope of the export request. */
  function ExportScope(currentStatus: bool): (scope: string)
    ensures scope == "done" <==> currentStatus
    ensures scope == "open" <==> !currentStatus
  {
    if currentStatus then "done" else "open"
  }

  /** `${localStorage.getItem("id")}`: a missing entry prints as `null`. */
  function StoredText(v: Option<string>): (text: string)
    ensures v.Some? ==> text == v.value
    ensures v.None? ==> text == "null"
  {
    match v
    case Some(s) => s
    case None => "null"
  }

  /** The `setExportJob` updater of the push handler. */
  function ApplyPush(prev: Option<ExportJob>, ev: ExportEvent): (r: Option<ExportJob>)
    ensures prev.None? || prev.value.jobId != ev.jobId ==> r == prev
    ensures prev.Some? && prev.value.jobId == ev.jobId ==>
      && r.Some?
      && r.value.jobId == prev.value.jobId
      && r.value.downloadUrl == prev.value.downloadUrl
      && r.value.status == ev.status
      && r.value.error == ev.error
  {
    if prev.None? || prev.value.jobId != ev.jobId then prev
    else Some(prev.value.(status := ev.status, error := ev.error))
  }

  /** The `setExportJob` updater of a status fetch or poll: `prev?.jobId || jobId`. */
  function ApplyReply(prev: Option<ExportJob>, jobId: string, reply: StatusReply): (r: ExportJob)
    ensures prev.Some? && prev.value.jobId != "" ==> r.jobId == prev.value.jobId
    ensures prev.None? || prev.value.jobId == "" ==> r.jobId == jobId
    ensures r.status == reply.status && r.downloadUrl == reply.downloadUrl && r.error == reply.error
  {
    var id := if prev.Some? && prev.value.jobId != "" then prev.value.jobId else jobId;
    ExportJob(id, reply.status, reply.downloadUrl, reply.error)
  }

  /**
   * Everything the hook keeps. `pollHandle` is `pollingIntervalRef.current`; `timers`
   * are the intervals the runtime is still firing; `nextTimer` is the next handle
   * `setInterval` hands out (handles are positive, hence truthy); `streamOpen` is
   * `eventSourceRef.current != null`; `mounted` turns false on unmount.
   */
  datatype ExportState = ExportState(
    job: Option<ExportJob>,
    isExporting: bool,
    pollHandle: Option<nat>,
    timers: map<nat, Interval>,
    nextTimer: nat,
    streamOpen: bool,
    mounted: bool)

  /** The polling handle, if any, names a running interval; handles are fresh and positive. */
  predicate Valid(s: ExportState)
  {
    && 0 < s.nextTimer
    && (s.pollHandle.Some? ==> s.pollHandle.value in s.timers)
    && (forall h :: h in s.timers ==> 0 < h < s.nextTimer)
  }

  function Initial(): (s: ExportState)
    ensures s.job.None? && !s.isExporting && s.pollHandle.None? && s.timers == map[]
    ensures !s.streamOpen && s.mounted
    ensures Valid(s)
  {
    ExportState(None, false, None, map[], 1, false, true)
  }

  /** `clearInterval(pollingIntervalRef.current); pollingIntervalRef.current = null`, when set. */
  function StopPolling(s: ExportState): (r: ExportState)
    ensures r.pollHandle.None?
    ensures s.pollHandle.Some? ==> r.timers == s.timers - {s.pollHandle.value}
    ensures s.pollHandle.None? ==> r.timers == s.timers
    ensures r.job == s.job && r.isExporting == s.isExporting && r.streamOpen == s.streamOpen
    ensures r.mounted == s.mounted && r.nextTimer == s.nextTimer
    ensures Valid(s) ==> Valid(r)
  {
    match s.pollHandle
    case Some(h) => s.(timers := s.timers - {h}, pollHandle := None)
    case None => s
  }

  /** The effect that opens the shared stream once a job exists. */
  function OpenStream(s: ExportState): (r: ExportState)
    ensures r.streamOpen <==> s.streamOpen || (s.mounted && s.job.Some?)
    ensures r.job == s.job && r.isExporting == s.isExporting && r.mounted == s.mounted
    ensures r.pollHandle == s.pollHandle && r.timers == s.timers && r.nextTimer == s.nextTimer
    ensures Valid(s) ==> Valid(r)
  {
    if s.mounted && s.job.Some? then s.(streamOpen := true) else s
  }

  /** `POST /exports/csv/{userId}` with `{scope: {status}}`. */
  datatype StartRequest = StartRequest(path: string, scope: string)

  function StartRequestFor(currentStatus: bool, userId: Option<string>): (req: StartRequest)
    ensures req.scope == ExportScope(currentStatus)
  {
    StartRequest("/exports/csv/" + StoredText(userId), ExportScope(currentStatus))
  }

  /**
   * `startExport`, given the job id the server answered with, or `None` when the request
   * failed. `s` is the state when the reply arrives: once the hook is unmounted the state
   * setters do nothing, but `setInterval` still runs and its handle still lands in the ref.
   */
  function Start(s: ExportState, reply: Option<string>): (r: ExportState)
    ensures reply.None? && s.mounted ==> r == s.(isExporting := false)
    ensures reply.None? && !s.mounted ==> r == s
    ensures reply.Some? && s.mounted ==>
      && r.isExporting
      && r.job == Some(ExportJob(reply.value, Pending, None, None))
      && r.streamOpen
    ensures reply.Some? && !s.mounted ==>
      r.job == s.job && r.isExporting == s.isExporting && r.streamOpen == s.streamOpen
    ensures reply.Some? ==>
      && r.pollHandle == Some(s.nextTimer)
      && r.timers == s.timers[s.nextTimer := Interval(reply.value, PollPeriodMs)]
    ensures Valid(s) ==> Valid(r)
  {
    match reply
    case None => if s.mounted then s.(isExporting := false) else s
    case Some(jobId) =>
      var started := if s.mounted then OpenStream(s.(isExporting := true, job := Some(ExportJob(jobId, Pending, None, None)))) else s;
      var h := s.nextTimer;
      started.(timers := s.timers[h := Interval(jobId, PollPeriodMs)], pollHandle := Some(h), nextTimer := h + 1)
  }

  /** The push listener exists (a job is set) and the event is an `export_update` for that job. */
  predicate PushMatches(s: ExportState, ev: ExportEvent)
    ensures PushMatches(s, ev) ==> s.job.Some? && ev.jobId == s.job.value.jobId
    ensures !s.mounted || s.job.None? || ev.eventType != "export_update" ==> !PushMatches(s, ev)
  {
    s.mounted && s.job.Some? && ev.eventType == "export_update" && ev.jobId == s.job.value.jobId
  }

  /** The `export_update` handler. */
  function Push(s: ExportState, ev: ExportEvent): (r: ExportState)
    ensures !PushMatches(s, ev) ==> r == s
    ensures PushMatches(s, ev) ==>
      && r.job.Some?
      && r.job.value.jobId == s.job.value.jobId
      && r.job.value.downloadUrl == s.job.value.downloadUrl
      && r.job.value.status == ev.status
      && r.job.value.error == ev.error
    ensures PushMatches(s, ev) && IsTerminal(ev.status) ==>
      && !r.isExporting && r.pollHandle.None?
      && (s.pollHandle.Some? ==> r.timers == s.timers - {s.pollHandle.value})
      && (s.pollHandle.None? ==> r.timers == s.timers)
    ensures PushMatches(s, ev) && !IsTerminal(ev.status) ==>
      r.isExporting == s.isExporting && r.pollHandle == s.pollHandle && r.timers == s.timers
    ensures r.mounted == s.mounted && r.streamOpen == s.streamOpen && r.nextTimer == s.nextTimer
    ensures Valid(s) ==> Valid(r)
  {
    if !PushMatches(s, ev) then s
    else
      var updated := s.(job := ApplyPush(s.job, ev));
      if IsTerminal(ev.status) then StopPolling(updated.(isExporting := false)) else updated
  }

  /** The job whose status the push handler fetches: the pushed one, once it completed. */
  function PushFetch(s: ExportState, ev: ExportEvent): (fetch: Option<string>)
    ensures fetch.Some? <==> PushMatches(s, ev) && ev.status == Completed
    ensures fetch.Some? ==> fetch.value == s.job.value.jobId
  {
    if PushMatches(s, ev) && ev.status == Completed then Some(ev.jobId) else None
  }

  /** `fetchExportStatus`: a successful reply overwrites the job; a failure changes nothing. */
  function Fetched(s: ExportState, jobId: string, reply: Option<StatusReply>): (r: ExportState)
    ensures reply.None? || !s.mounted ==> r == s
    ensures reply.Some? && s.mounted ==> r.job == Some(ApplyReply(s.job, jobId, reply.value))
    ensures r.isExporting == s.isExporting && r.pollHandle == s.pollHandle && r.timers == s.timers
    ensures Valid(s) ==> Valid(r)
  {
    if reply.None? || !s.mounted then s
    else OpenStream(s.(job := Some(ApplyReply(s.job, jobId, reply.value))))
  }

  /**
   * `pollExportStatus`: as a fetch, and a terminal status ends the export and the polling.
   * The interval is cleared through the ref, which works after unmount as well.
   */
  function Polled(s: ExportState, jobId: string, reply: Option<StatusReply>): (r: ExportState)
    ensures reply.None? ==> r == s
    ensures reply.Some? && s.mounted ==> r.job == Some(ApplyReply(s.job, jobId, reply.value))
    ensures !s.mounted ==> r.job == s.job && r.isExporting == s.isExporting
    ensures reply.Some? && IsTerminal(reply.value.status) ==>
      && r.pollHandle.None?
      && (s.pollHandle.Some? ==> r.timers == s.timers - {s.pollHandle.value})
      && (s.pollHandle.None? ==> r.timers == s.timers)
      && (s.mounted ==> !r.isExporting)
    ensures reply.Some? && !IsTerminal(reply.value.status) ==>
      r.isExporting == s.isExporting && r.pollHandle == s.pollHandle && r.timers == s.timers
    ensures r.mounted == s.mounted && r.nextTimer == s.nextTimer
    ensures Valid(s) ==> Valid(r)
  {
    var fetched := Fetched(s, jobId, reply);
    if reply.Some? && IsTerminal(reply.value.status) then
      StopPolling(if s.mounted then fetched.(isExporting := false) else fetched)
    else fetched
  }

  /** A tick of a running interval polls the job that interval was started for. */
  function Tick(s: ExportState, h: nat, reply: Option<StatusReply>): (r: ExportState)
    requires h in s.timers
    ensures reply.Some? && s.mounted && s.job.None? ==> r.job.Some? && r.job.value.jobId == s.timers[h].jobId
    ensures reply.Some? && s.mounted ==> r.job.Some? && r.job.value.status == reply.value.status
    ensures Valid(s) ==> Valid(r)
  {
    Polled(s, s.timers[h].jobId, reply)
  }

  /** The unmount cleanup: close the stream, clear the polling handle. */
  function Unmounted(s: ExportState): (r: ExportState)
    ensures !r.streamOpen && !r.mounted && r.pollHandle.None?
    ensures s.pollHandle.Some? ==> r.timers == s.timers - {s.pollHandle.value}
    ensures s.pollHandle.None? ==> r.timers == s.timers
    ensures r.job == s.job && r.isExporting == s.isExporting && r.nextTimer == s.nextTimer
    ensures Valid(s) ==> Valid(r)
  {
    StopPolling(s.(streamOpen := false, mounted := false))
  }

  datatype Download = NotReady | FetchFile(path: string, fileName: string)

  /** `downloadCSV`: refused until the job has completed. */
  function DownloadFor(s: ExportState, userId: Option<string>): (d: Download)
    ensures d.FetchFile? <==> s.job.Some? && s.job.value.status == Completed
    ensures d.FetchFile? ==> d.fileName == "tasks_export_" + s.job.value.jobId + ".csv"
    ensures d.FetchFile? ==> d.path == "/exports/csv/" + s.job.value.jobId + "/" + StoredText(userId) + "/file"
  {
    if s.job.None? || s.job.value.status != Completed then NotReady
    else FetchFile("/exports/csv/" + s.job.value.jobId + "/" + StoredText(userId) + "/file",
                   "tasks_export_" + s.job.value.jobId + ".csv")
  }

  /**
   * Starting an export while an earlier interval is still polling overwrites the handle
   * without clearing that interval: it keeps running and nothing can clear it any more.
   */
  lemma RestartKeepsEarlierInterval(s: ExportState, jobId: string)
    requires Valid(s) && s.pollHandle.Some?
    ensures s.pollHandle.value in Start(s, Some(jobId)).timers
    ensures Start(s, Some(jobId)).pollHandle != s.pollHandle
    ensures |Start(s, Some(jobId)).timers.Keys| == |s.timers.Keys| + 1
  {
    var h := s.nextTimer;
    assert h !in s.timers;
    assert Start(s, Some(jobId)).timers.Keys == s.timers.Keys + {h};
  }

  /** With a single export at a time, at most one interval is ever running. */
  lemma SingleExportSinglePoller(s: ExportState, jobId: string, ev: ExportEvent)
    requires Valid(s) && s.timers == map[] && s.pollHandle.None?
    ensures |Start(s, Some(jobId)).timers| == 1
    ensures IsTerminal(ev.status) && PushMatches(Start(s, Some(jobId)), ev) ==>
      Push(Start(s, Some(jobId)), ev).timers == map[]
  {
    var r := Start(s, Some(jobId));
    assert r.timers.Keys == {s.nextTimer};
  }

  /**
   * A start reply that arrives after unmount changes no React state, yet leaves a running
   * interval in the ref that the unmount cleanup can no longer reach.
   */
  lemma LateReplyLeaksInterval(s: ExportState, jobId: string)
    requires Valid(s)
    ensures Start(Unmounted(s), Some(jobId)).job == s.job
    ensures Start(Unmounted(s), Some(jobId)).isExporting == s.isExporting
    ensures s.nextTimer in Start(Unmounted(s), Some(jobId)).timers
    ensures s.nextTimer !in Unmounted(s).timers
  {
    assert s.nextTimer !in s.timers;
  }

  /** That leaked interval is cleared by its first terminal poll, back to the timers left at unmount. */
  lemma LateIntervalStopsOnTerminalPoll(s: ExportState, jobId: string, reply: StatusReply)
    requires Valid(s) && IsTerminal(reply.status)
    ensures Polled(Start(Unmounted(s), Some(jobId)), jobId, Some(reply)).timers == Unmounted(s).timers
  {
    var u := Unmounted(s);
    var started := Start(u, Some(jobId));
    assert s.nextTimer !in u.timers by {
      assert Valid(u);
    }
    assert started.timers - {s.nextTimer} == u.timers;
  }

  /**
   * Only the interval the ref names is ever cleared: an interval the ref no longer names
   * (left behind by a restart or by a start reply after unmount) survives every step of
   * the hook, and it never becomes the ref's handle again.
   */
  lemma OrphanIntervalSurvives(s: ExportState, h: nat, ev: ExportEvent, jobId: string,
                               reply: Option<StatusReply>, started: Option<string>)
    requires Valid(s) && h in s.timers && s.pollHandle != Some(h)
    ensures var r := Push(s, ev); h in r.timers && r.timers[h] == s.timers[h] && r.pollHandle != Some(h)
    ensures var r := Fetched(s, jobId, reply); h in r.timers && r.timers[h] == s.timers[h] && r.pollHandle != Some(h)
    ensures var r := Polled(s, jobId, reply); h in r.timers && r.timers[h] == s.timers[h] && r.pollHandle != Some(h)
    ensures var r := Start(s, started); h in r.timers && r.timers[h] == s.timers[h] && r.pollHandle != Some(h)
    ensures var r := Unmounted(s); h in r.timers && r.timers[h] == s.timers[h] && r.pollHandle != Some(h)
    ensures var r := OpenStream(s); h in r.timers && r.timers[h] == s.timers[h] && r.pollHandle != Some(h)
  {
  }

  /** The unmount cleanup removes the listener: no pushed event changes the state afterwards. */
  lemma PushAfterUnmount(s: ExportState, ev: ExportEvent)
    ensures Push(Unmounted(s), ev) == Unmounted(s)
    ensures PushFetch(Unmounted(s), ev).None?
  {
  }

  /**
   * After a restart, the earlier interval still polls its own job; a terminal reply to it
   * lands on the new job (`prev?.jobId || jobId` keeps the new id), ends the new export and
   * clears the new interval, while the earlier one keeps running.
   */
  lemma StalePollEndsRestartedExport(s: ExportState, a: string, b: string, reply: StatusReply)
    requires Valid(s) && s.mounted && b != "" && IsTerminal(reply.status)
    ensures s.nextTimer in Start(Start(s, Some(a)), Some(b)).timers
    ensures
      var s2 := Start(Start(s, Some(a)), Some(b));
      var r := Tick(s2, s.nextTimer, Some(reply));
      && r.job == Some(ExportJob(b, reply.status, reply.downloadUrl, reply.error))
      && !r.isExporting
      && r.pollHandle.None?
      && s.nextTimer + 1 !in r.timers
      && s.nextTimer in r.timers
  {
  }

  /**
   * The hook's state. `currentStatus`, the hook's argument, is read anew on every render,
   * so it is a parameter of `StartExport` rather than a field.
   */
  class ExportHook {
    var exportJob: Option<ExportJob>
    var isExporting: bool
    var pollingIntervalRef: Option<nat>
    var timers: map<nat, Interval>
    var nextTimer: nat
    var eventSourceOpen: bool
    var mounted: bool

    function State(): ExportState
      reads this
    {
      ExportState(exportJob, isExporting, pollingIntervalRef, timers, nextTimer, eventSourceOpen, mounted)
    }

    constructor ()
      ensures State() == Initial()
    {
      exportJob := None;
      isExporting := false;
      pollingIntervalRef := None;
      timers := map[];
      nextTimer := 1;
      eventSourceOpen := false;
      mounted := true;
    }

    method ClearPolling()
      modifies this
      ensures State() == StopPolling(old(State()))
    {
      if pollingIntervalRef.Some? {
        timers := timers - {pollingIntervalRef.value};
        pollingIntervalRef := None;
      }
    }

    /** The effect keyed on the job id: opens the stream when a job exists and none is open. */
    method SyncStream()
      modifies this
      ensures State() == OpenStream(old(State()))
    {
      if mounted && exportJob.Some? && !eventSourceOpen {
        eventSourceOpen := true;
      }
    }

    /**
     * `startExport` under the view `currentStatus` of the render that made the call;
     * `reply` is the job id the server returned, or `None` on failure.
     */
    method StartExport(currentStatus: bool, userId: Option<string>, reply: Option<string>) returns (req: StartRequest)
      modifies this
      ensures req == StartRequestFor(currentStatus, userId)
      ensures State() == Start(old(State()), reply)
    {
      if mounted {
        isExporting := true;
      }
      req := StartRequest("/exports/csv/" + StoredText(userId), ExportScope(currentStatus));
      if reply.None? {
        if mounted {
          isExporting := false;
        }
        return;
      }
      var jobId := reply.value;
      if mounted {
        exportJob := Some(ExportJob(jobId, Pending, None, None));
        SyncStream();
      }
      var h := nextTimer;
      nextTimer := nextTimer + 1;
      timers := timers[h := Interval(jobId, PollPeriodMs)];
      pollingIntervalRef := Some(h);
    }

    /** The `export_update` listener; `fetch` is the job whose status it then fetches. */
    method OnExportUpdate(ev: ExportEvent) returns (fetch: Option<string>)
      modifies this
      ensures State() == Push(old(State()), ev)
      ensures fetch == PushFetch(old(State()), ev)
    {
      fetch := None;
      if !mounted || exportJob.None? {
        return;
      }
      if ev.eventType != "export_update" {
        return;
      }
      if ev.jobId != exportJob.value.jobId {
        return;
      }
      exportJob := ApplyPush(exportJob, ev);
      if ev.status == Completed {
        isExporting := false;
        fetch := Some(ev.jobId);
        ClearPolling();
      } else if ev.status == Failed {
        isExporting := false;
        ClearPolling();
      }
    }

    method FetchExportStatus(jobId: string, reply: Option<StatusReply>)
      modifies this
      ensures State() == Fetched(old(State()), jobId, reply)
    {
      if reply.None? || !mounted {
        return;
      }
      exportJob := Some(ApplyReply(exportJob, jobId, reply.value));
      SyncStream();
    }

    method PollExportStatus(jobId: string, reply: Option<StatusReply>)
      modifies this
      ensures State() == Polled(old(State()), jobId, reply)
    {
      if reply.None? {
        return;
      }
      if mounted {
        exportJob := Some(ApplyReply(exportJob, jobId, reply.value));
        SyncStream();
      }
      var status := reply.value.status;
      if status == Completed || status == Failed {
        if mounted {
          isExporting := false;
        }
        ClearPolling();
      }
    }

    /** A tick of the running interval `h`. */
    method OnTick(h: nat, reply: Option<StatusReply>)
      requires h in timers
      modifies this
      ensures State() == Tick(old(State()), h, reply)
    {
      PollExportStatus(timers[h].jobId, reply);
    }

    /** `downloadCSV`: the request it makes, or `NotReady`. */
    method DownloadCsv(userId: Option<string>) returns (d: Download)
      ensures d.FetchFile? <==> exportJob.Some? && exportJob.value.status == Completed
      ensures d.FetchFile? ==> d.fileName == "tasks_export_" + exportJob.value.jobId + ".csv"
      ensures d == DownloadFor(State(), userId)
    {
      if exportJob.None? || exportJob.value.status != Completed {
        return NotReady;
      }
      var jobId := exportJob.value.jobId;
      d := FetchFile("/exports/csv/" + jobId + "/" + StoredText(userId) + "/file",
                     "tasks_export_" + jobId + ".csv");
    }

    method Unmount()
      modifies this
      ensures State() == Unmounted(old(State()))
    {
      if eventSourceOpen {
        eventSourceOpen := false;
      }
      mounted := false;
      ClearPolling();
    }
  }
}

=== FILE: wrappers.dfy ===
/** A value that may be absent: JavaScript's `null`/`undefined`, or a lookup that found nothing. */
module Wrappers {

  datatype Option<+T> = None | Some(value: T)

}
